=== FILE: README.md ===
# Maconomy time-registration client: the `report` flow

This project models the core of a command-line client for the Maconomy
time-registration container API (`maconomy.py`). Its one command with real
behaviour is `report`. The command:

1. checks that the hours argument splits into five values;
2. opens a container instance with the user's basic credential;
3. fetches the current week with the tokens of that response;
4. overwrites the five weekday hour fields `numberday1..5` of one table row;
5. posts the whole row back with the tokens of the fetch response, logging the
   instance out.

The model is a pure function, `CommandReport.Report`. It takes the command's
arguments and a scripted transport and returns the requests issued, in order,
together with how the command ended. The scripted transport is a list of three
answers. Each answer is either `None` (the transport raised, and `_call`
swallowed the exception) or a response with a status, headers and a JSON body.
The `k`-th request issued is answered by the `k`-th answer.

Modules, one per component of the client:

- `Wrappers` (`wrappers.dfy`): `Option`, for Python's `None`.
- `Json` (`json.dfy`): JSON values as the `json` module decodes them, and
  key-path subscripting.
- `Text` (`text.dfy`): `str.split(',')`, `int()` on digit strings, and the
  decimal formatting used in `f"numberday{i+1}"`.
- `ApiClient` (`api_client.dfy`): `ApiClient._call` (the header merge) and
  `MaconomyApiClient` (base headers, basic credential, `post`).
- `Timesheet` (`timesheet.dfy`): record projection. This covers finding row
  `int(row)` in the table pane, writing the day fields, and the fields the
  confirmation message reads.
- `CommandReport` (`report.dfy`): `command_report` as three request-building
  steps plus their sequencing. The session state (instance id and the three
  tokens) is advanced by every accepted response.
- `Scenarios` (`scenarios.dfy`): concrete runs over literal scripts.

Facts about the code that the model keeps:

- The tokens are overwritten by every accepted response, the reconnect token
  included (maconomy.py:101-103). `ReportChainsTokens` states this in general,
  and `ReportFiveValuesForRowTwo` shows the post carrying the fetch response's
  reconnect token.
- The row argument is not checked before any request is sent. `int(args.row)`
  is evaluated only after two requests have gone out (maconomy.py:111). A
  non-numeric row or an out-of-range row is an uncaught exception. A negative
  row in `-len..-1` indexes the table from its end and the post goes to
  `.../table/-1`; this is not intended behaviour. The model excludes all three
  by precondition.
- The endpoint path uses the row string exactly as typed, while the table entry
  is chosen by `int(row)` (maconomy.py:111, 122). `ReportRowSpelling` states
  this.
- The instance id is interpolated into the paths by f-strings (maconomy.py:99,
  122), so a numeric id works as well as a string one. `Json.Format` gives the
  spelling `str()` produces.

## Model

| member | source | states |
|---|---|---|
| `Text.Split` | maconomy.py:67-68 | `timeperday.split(',')` yields one more piece than there are commas, and no piece contains a comma |
| `Text.SplitThenJoin` | maconomy.py:67 | joining the pieces with commas gives back the argument, so splitting loses nothing |
| `Text.SplitJoin` | maconomy.py:67 | the converse round trip: splitting comma-joined comma-free pieces gives the pieces back, so the five values are exactly what sits between the commas |
| `Text.Decimal` | maconomy.py:114 | the number formatted into `numberday{i+1}` is a digit string that `int()` reads back as the same number, with no leading zero when the number is positive |
| `Timesheet.DayKey` | maconomy.py:114 | the `i`-th day field is `numberday` followed by the canonical decimal spelling of `i+1`, which `int()` reads back as `i+1` |
| `CommandReport.ParseHours` | maconomy.py:113-114 | `int(time)` of each hour value, in order: one number per piece, each the value of its digit string |
| `Json.Format` | maconomy.py:99 | the instance id as an f-string renders it: a string as itself, an integer in decimal (with `-` when negative) that `int()` reads back, and `True`, `False`, `None` |
| `ApiClient.NewClientHeaders` | maconomy.py:45-57 | a fresh client holds the (username, password) credential and five distinct fixed headers, among them `X-Forwarded-Proto: https` and `Accept-Language: en-US` |
| `ApiClient.TruthyAnd200IsAccepted` | maconomy.py:79 | `response and response.status_code == 200`, with `None` falsy and a response falsy exactly for a 4xx or 5xx status, holds exactly when a response was delivered with status 200 |
| `Timesheet.DayKeyInjective` | maconomy.py:114 | different weekday indices name different `numberday` fields, so no write overwrites another |
| `Timesheet.FindRow` | maconomy.py:110-111 | the row taken from `panes.table.records[int(row)]` is one of the table's records and is editable |
| `Timesheet.FindRowAtIndex` | maconomy.py:111 | the row addressed by the decimal spelling of `i` (at most 4300 digits, the most `int()` converts) is exactly the `i`-th table record |
| `Timesheet.WriteDays` | maconomy.py:113-114 | the enumerate loop leaves every day field from the given index on holding its hour value, keeps every other key, and adds only day fields |
| `Timesheet.SetWeekdayHours` | maconomy.py:110-114 | the posted row is the fetched row with `data.numberday{i+1}` set to the i-th hour value; every other `data` entry and every other field of the row is unchanged, and no key is lost |
| `Timesheet.SummarySurvivesEdit` | maconomy.py:124-128 | editing the day fields keeps `employeenumber`, `periodstart` and `jobnumber`, so the confirmation names the fetched row's own values |
| `ApiClient.Call` | maconomy.py:19-29 | the headers sent are the client's headers overridden key by key by the call's extra headers, with the union of both key sets; verb, path, body and the client's current credential pass through |
| `CommandReport.AdvanceForgetsEarlierTokens` | maconomy.py:100-103 | advancing the session by two accepted responses in turn equals advancing it by the later one alone: no token of the earlier response, the reconnect token included, survives |
| `CommandReport.OpenInstance` | maconomy.py:72-78 | the first step POSTs an empty object to `timeregistration/instances` with the client's credential; its authentication mode is `X-Reconnect` (the later of two assignments); every other client header is kept |
| `CommandReport.FetchWeek` | maconomy.py:94-99 | the fetch POSTs no body to `instances/{id}/data;any`, carries the session tokens, and adds no authentication-mode header |
| `CommandReport.PostRow` | maconomy.py:116-122 | the row post sends the payload to `instances/{id}/data/panes/table/{row}` with the session tokens and authentication mode `X-Log-Out` |
| `CommandReport.StepHeadersAreNotBaseHeaders` | maconomy.py:49-55 | no per-step header of the flow shares a name with a base header |
| `CommandReport.Report` | maconomy.py:63-130 | nothing is sent iff the hours do not split into five, and the wrong-count outcome is reported iff nothing is sent; at most three requests go out |
| `CommandReport.ReportShortCircuits` | maconomy.py:79-123 | a request follows only an accepted answer to its predecessor, and issuing stops at the first answer that is not accepted |
| `CommandReport.ReportOutcome` | maconomy.py:79-130 | the command aborts iff the open or the fetch is not accepted, fails iff the post is not accepted, and reports the update iff all three are |
| `CommandReport.ReportOpenStep` | maconomy.py:63-78 | once the hours are accepted, the first request is the open step issued from the fresh client with the user's credential |
| `CommandReport.ReportFetchStep` | maconomy.py:79-99 | once the open is accepted, the second request is the fetch step, issued from the client with its credential cleared, for the first response's instance and tokens |
| `CommandReport.ReportPostStep` | maconomy.py:100-122 | once the fetch is accepted, the third request is the post step, issued from the client with its credential cleared, for the same instance, with the second response's tokens and the edited row |
| `CommandReport.ReportKeepsBaseHeaders` | maconomy.py:49-60 | every request sent carries each base header with its fixed value |
| `CommandReport.ReportClearsCredential` | maconomy.py:88-89 | every request is a POST; the first carries the (username, password) basic credential and every later one carries none |
| `CommandReport.ReportFirstRequest` | maconomy.py:74-78 | when the hours are well formed, the first request goes to `timeregistration/instances` with an empty-object body and headers equal to the base headers plus `Maconomy-Authentication: X-Reconnect` |
| `CommandReport.ReportChainsTokens` | maconomy.py:79-119 | the second request carries `Authorization: X-Reconnect <reconnect>`, the concurrency token and the request id of the first response; the third carries those of the second response |
| `CommandReport.ReportFetchesCreatedInstance` | maconomy.py:79-99 | once the open is accepted, a second request goes out and fetches `instances/{containerInstanceId}/data;any` for the id in the first response's `meta`, without body or authentication mode |
| `CommandReport.ReportPostsEditedRow` | maconomy.py:108-122 | once the fetch is accepted, a third request goes out and posts the fetched row, edited in its day fields, to the row endpoint of the same instance, with `X-Log-Out` |
| `CommandReport.ReportSummaryIsFetchedRows` | maconomy.py:124-128 | when all three answers are accepted, the outcome is an update naming the employee, period and job of the fetched row |
| `CommandReport.ReportRowSpelling` | maconomy.py:109-122 | two spellings of one row number that `int()` converts post the same edited row, each to the endpoint named by its own spelling |
| `Scenarios.ThreeValuesRejectedBeforeSending` | maconomy.py:67-70 | with hours `8,8,8` no request is sent and the command ends with the wrong-count outcome, whatever the transport would answer |
| `Scenarios.ReportFiveValuesForRowTwo` | maconomy.py:108-122 | hours `8,8,8,4,8` for row 2 of a table whose three rows differ post that row, and only that row, with its day fields set, under all three tokens of the fetch response (`X-Reconnect r2`, `c2`, `q2`, not the first response's `r1`) |
| `Scenarios.ZeroRowEdited` | maconomy.py:113-114 | writing `8,8,8,4,8` into a row of zeros sets `numberday1..5` to 8, 8, 8, 4, 8 and keeps `description` and `meta` |
| `Scenarios.ReportFiveValuesConfirms` | maconomy.py:124-128 | the same run ends with a confirmation naming employee `1001`, period `2024-01-01` and job `J-7` |

## Left out

- The HTTP transport (the `requests` library, TLS, `urljoin` and the base URL)
  is the scripted answer list. Paths are kept as strings relative to the base URL.
- Response headers are a case-insensitive mapping in the transport library.
  The model uses an exact-key map and looks headers up by the spelling the code
  uses.
- Logging and the verbose flag are left out because they only produce
  diagnostics. The text of the success and error messages is left out too. The
  three fields the success message reads are kept in the `Updated` outcome.
- Argument parsing, the banner and the `__main__` dispatch (maconomy.py:139-177)
  are command-line plumbing.
- `command_submit` (maconomy.py:132-133) is an empty stub.
- Uncaught exceptions are excluded by the precondition
  `CommandReport.Completes` rather than modelled as outcomes. These are the
  `KeyError` on a missing JSON field or header, the `ValueError` from `int()`,
  the `IndexError` on an out-of-range row, and a non-object row. The
  precondition asks only what the command actually reads on the path it takes.
- `int()` also accepts signs, surrounding whitespace, underscores and
  non-ASCII decimal digits. Such spellings are excluded by requiring strings of
  ASCII digits only. The limit of 4300 digits (`Text.IntMaxDigits`) is that of
  CPython 3.11 and later; earlier versions convert longer strings too. A negative row would
  index from the end of the table in Python, which is not intended behaviour.
- `post` with `extra_headers=None` would raise `TypeError`. The report flow
  never calls it that way.
- CommandReport.OpensInstance: an instance id that is a JSON array or object
  is excluded, because its `repr` spelling in the paths is not modelled.
- `response.json()` decoding is not modelled: bodies arrive already decoded.
  JSON floating-point numbers are not modelled either.
- The in-place mutation of the decoded response (the payload aliases the
  fetch response's record) is modelled as building a new value. Nothing reads
  the response afterwards.
- Python dictionary key order is not modelled, because headers and records are
  maps.

=== FILE: api_client.dfy ===
/** The HTTP client layer: the generic `ApiClient` whose `_call` merges the
    client's fixed headers with per-call extra headers and turns any transport
    exception into `None`, and the vendor-specific `MaconomyApiClient` that fixes
    those headers and the initial basic credential and issues every call as a POST.

    The transport itself is not modelled: a call produces the `Request` that would
    be sent, and its answer is supplied from outside as an `Answer`. */
module ApiClient {
  import opened Wrappers
  import opened Json

  type Headers = map<string, string>

  /** The `(username, password)` pair handed to the transport as basic auth. */
  datatype Credential = Credential(username: string, password: string)

  /** What reaches the transport: verb, path relative to the fixed base URL,
      the merged headers, the basic credential (if any) and the JSON body (if any). */
  datatype Request = Request(
    verb: string,
    path: string,
    headers: Headers,
    auth: Option<Credential>,
    body: Option<Json>)

  datatype Response = Response(status: int, headers: Headers, body: Json)

  /** The outcome of one transport call as `_call` returns it: `None` when the
      transport raised (the exception is logged and swallowed), otherwise the response. */
  type Answer = Option<Response>

  /** The state an `ApiClient` carries between calls. */
  datatype Client = Client(headers: Headers, auth: Option<Credential>)

  /** `_call`: the request carries the client's headers overridden key by key by
      `extra`, and the client's current credential. The client itself is a value
      and so is never changed by a call. */
  function Call(c: Client, verb: string, path: string, data: Option<Json>, extra: Headers): (r: Request)
    ensures r.verb == verb && r.path == path && r.body == data && r.auth == c.auth
    ensures r.headers.Keys == c.headers.Keys + extra.Keys
    ensures forall k :: k in extra ==> r.headers[k] == extra[k]
    ensures forall k :: k in c.headers && k !in extra ==> r.headers[k] == c.headers[k]
  {
    Request(verb, path, c.headers + extra, c.auth, data)
  }

  /** The truth value of an answer: `None` is falsy, and a `requests` response
      object is falsy exactly for a 4xx or 5xx status. */
  predicate Truthy(a: Answer)
  {
    a.Some? && !(400 <= a.value.status < 600)
  }

  /** An answer the command goes on from: a delivered response with status 200. */
  predicate Accepted(a: Answer)
  {
    a.Some? && a.value.status == 200
  }

  /** The test `response and response.status_code == 200`, read literally with
      Python's truth value of a response, holds exactly for an accepted answer. */
  lemma TruthyAnd200IsAccepted(a: Answer)
    ensures (Truthy(a) && a.value.status == 200) <==> Accepted(a)
  {
  }

  /** The headers `MaconomyApiClient` sends on every call. */
  const BaseHeaders: Headers := map[
    "X-Forwarded-Proto" := "https",
    "Maconomy-Forwarded-Base-Path" := "maconomy-api",
    "Accept" := "application/vnd.deltek.maconomy.containers-v2+json; charset=utf-8",
    "Content-type" := "application/vnd.deltek.maconomy.containers-v2+json",
    "Accept-Language" := "en-US"
  ]

  /** A freshly constructed `MaconomyApiClient`. */
  function NewMaconomyClient(username: string, password: string): Client
  {
    Client(BaseHeaders, Some(Credential(username, password)))
  }

  /** A fresh client sends five distinct fixed headers and holds the user's
      basic credential. */
  lemma NewClientHeaders(username: string, password: string)
    ensures NewMaconomyClient(username, password).auth == Some(Credential(username, password))
    ensures NewMaconomyClient(username, password).headers.Keys ==
      {"X-Forwarded-Proto", "Maconomy-Forwarded-Base-Path", "Accept", "Content-type", "Accept-Language"}
    ensures |NewMaconomyClient(username, password).headers| == 5
    ensures NewMaconomyClient(username, password).headers["Accept-Language"] == "en-US"
    ensures NewMaconomyClient(username, password).headers["X-Forwarded-Proto"] == "https"
  {
  }

  /** `MaconomyApiClient.post`. */
  function Post(c: Client, path: string, data: Option<Json>, extra: Headers): Request
  {
    Call(c, "POST", path, data, extra)
  }

  /** Every header a request carries for a base-header key is the base value:
      no per-call header of the report flow overrides a base header. */
  predicate KeepsBaseHeaders(r: Request)
  {
    forall k :: k in BaseHeaders ==> k in r.headers && r.headers[k] == BaseHeaders[k]
  }

}

=== FILE: json.dfy ===
/** The JSON documents exchanged with the container API, as Python's `json` module
    hands them to the client: objects become dictionaries, arrays become lists.
    Floating-point numbers are not modelled; every number is an integer. */
module Json {
  import opened Text

  datatype Json =
    | JNull
    | JBool(b: bool)
    | JNum(n: int)
    | JStr(s: string)
    | JArr(items: seq<Json>)
    | JObj(fields: map<string, Json>)

  /** True iff subscripting `j` successively with every key of `path` (as in
      `j["panes"]["table"]["records"]`) raises no `KeyError` or `TypeError`. */
  predicate HasPath(j: Json, path: seq<string>)
    decreases |path|
  {
    |path| == 0 || (j.JObj? && path[0] in j.fields && HasPath(j.fields[path[0]], path[1..]))
  }

  /** The value reached by subscripting `j` with every key of `path` in turn. */
  function At(j: Json, path: seq<string>): Json
    requires HasPath(j, path)
    decreases |path|
  {
    if |path| == 0 then j else At(j.fields[path[0]], path[1..])
  }

  /** A value an f-string renders with `str()` rather than a container `repr`. */
  predicate IsScalar(j: Json)
  {
    !j.JArr? && !j.JObj?
  }

  /** `f"{j}"` for a decoded scalar: a string as itself, an integer in decimal
      with a leading `-` when negative, and `True`, `False`, `None`. */
  function Format(j: Json): (s: string)
    requires IsScalar(j)
    ensures j.JStr? ==> s == j.s
    ensures j.JNum? && j.n >= 0 ==> IsDigits(s) && ParseNat(s) == j.n && (j.n > 0 ==> s[0] != '0')
    ensures j.JNum? && j.n >= 0 ==> (j.n < 10 <==> |s| == 1)
    ensures j.JNum? && j.n < 0 ==> |s| > 1 && s[0] == '-' && IsDigits(s[1..]) && ParseNat(s[1..]) == -j.n
    ensures j.JNum? && j.n < 0 ==> s[1] != '0'
    ensures j.JBool? ==> s == (if j.b then "True" else "False")
    ensures j.JNull? ==> s == "None"
  {
    match j
    case JStr(t) => t
    case JNum(n) => if n >= 0 then Decimal(n) else "-" + Decimal(-n)
    case JBool(b) => if b then "True" else "False"
    case JNull => "None"
  }

}

=== FILE: report.dfy ===
/** `command_report`: open a time-registration container instance, fetch the
    current week, overwrite the five weekday hour fields of one table row and post
    the row back, each step carrying the tokens of the previous response.

    The command is a pure function from its arguments and a scripted transport to
    the requests it issues and how it ends. The transport answers the `k`-th
    issued request with the `k`-th scripted answer. */
module CommandReport {
  import opened Wrappers
  import opened Json
  import opened Text
  import opened ApiClient
  import opened Timesheet

  /** The command-line arguments `command_report` reads (the verbose flag only
      affects diagnostics). `row` is kept as the string the user typed. */
  datatype Args = Args(username: string, password: string, row: string, timeperday: string)

  /** How the command ends. `WrongDayCount`: the hours argument did not hold five
      values and nothing was sent. `Aborted`: opening the instance or fetching the
      week was not answered with 200. `Failed`: the row post was not answered with
      200. `Updated`: the row was posted; it carries the employee, period and job
      fields the confirmation message names. */
  datatype Outcome =
    | WrongDayCount
    | Aborted
    | Failed
    | Updated(employee: Json, period: Json, job: Json)

  /** Everything the command does: the requests in the order issued, and its end. */
  datatype Run = Run(requests: seq<Request>, outcome: Outcome)

  const DayCount := 5
  const AuthModeHeader := "Maconomy-Authentication"
  const ReconnectHeader := "Maconomy-Reconnect"
  const ConcurrencyHeader := "Maconomy-Concurrency-Control"
  const RequestIdHeader := "Maconomy-RequestId"
  const InstancesPath := "timeregistration/instances"
  const InstanceIdPath: seq<string> := ["meta", "containerInstanceId"]

  /** The three tokens the server hands out with every successful response. */
  datatype Tokens = Tokens(reconnect: string, concurrency: string, requestId: string)

  /** The session state carried between steps: the container instance and the
      tokens of the latest successful response. */
  datatype Session = Session(instanceId: string, tokens: Tokens)

  predicate HasTokens(r: Response)
  {
    ReconnectHeader in r.headers && ConcurrencyHeader in r.headers && RequestIdHeader in r.headers
  }

  /** The tokens read from a successful response's headers. */
  function TokensOf(r: Response): Tokens
    requires HasTokens(r)
  {
    Tokens(r.headers[ReconnectHeader], r.headers[ConcurrencyHeader], r.headers[RequestIdHeader])
  }

  /** After a successful response all three tokens, the reconnect token included,
      are replaced by that response's tokens; the instance stays the same. */
  function Advance(s: Session, r: Response): Session
    requires HasTokens(r)
  {
    s.(tokens := TokensOf(r))
  }

  /** No token of an earlier response survives a later accepted response: the
      tokens are replaced as a whole, the reconnect token included. */
  lemma AdvanceForgetsEarlierTokens(s: Session, r1: Response, r2: Response)
    requires HasTokens(r1) && HasTokens(r2)
    ensures Advance(Advance(s, r1), r2) == Advance(s, r2)
  {
  }

  /** The token headers of the steps after the first. */
  function TokenHeaders(t: Tokens): Headers
  {
    map["Authorization" := "X-Reconnect " + t.reconnect, ConcurrencyHeader := t.concurrency, RequestIdHeader := t.requestId]
  }

  /** `r` carries the tokens `t` in the form the server expects. */
  predicate SendsTokens(r: Request, t: Tokens)
  {
    && "Authorization" in r.headers && r.headers["Authorization"] == "X-Reconnect " + t.reconnect
    && ConcurrencyHeader in r.headers && r.headers[ConcurrencyHeader] == t.concurrency
    && RequestIdHeader in r.headers && r.headers[RequestIdHeader] == t.requestId
  }

  /** The first response names the container instance and carries the tokens.
      The instance id may be any scalar: the paths interpolate it. */
  predicate OpensInstance(r: Response)
  {
    HasTokens(r) && HasPath(r.body, InstanceIdPath) && IsScalar(At(r.body, InstanceIdPath))
  }

  /** The instance id as it appears in the paths of the later steps. */
  function InstanceId(r: Response): string
    requires OpensInstance(r)
  {
    Format(At(r.body, InstanceIdPath))
  }

  /** Step 1: create the container instance. The authentication-mode header is
      assigned `X-Basic` and then `X-Reconnect`; the second assignment is the one
      sent. The body is an empty object, and the client's basic credential goes along. */
  function OpenInstance(api: Client): (r: Request)
    ensures r.verb == "POST" && r.path == InstancesPath
    ensures r.body == Some(JObj(map[])) && r.auth == api.auth
    ensures r.headers.Keys == api.headers.Keys + {AuthModeHeader}
    ensures r.headers[AuthModeHeader] == "X-Reconnect"
    ensures forall k :: k in api.headers && k != AuthModeHeader ==> r.headers[k] == api.headers[k]
  {
    var extra := map[AuthModeHeader := "X-Basic"][AuthModeHeader := "X-Reconnect"];
    Post(api, InstancesPath, Some(JObj(map[])), extra)
  }

  /** Step 2: fetch all panes of the instance's current week. No body and no
      authentication-mode header of its own; the session's tokens are sent. */
  function FetchWeek(api: Client, s: Session): (r: Request)
    ensures r.verb == "POST" && r.path == InstancesPath + "/" + s.instanceId + "/data;any"
    ensures r.body == None && r.auth == api.auth
    ensures r.headers.Keys == api.headers.Keys + TokenHeaders(s.tokens).Keys
    ensures SendsTokens(r, s.tokens)
    ensures AuthModeHeader in r.headers <==> AuthModeHeader in api.headers
    ensures forall k :: k in api.headers && k !in TokenHeaders(s.tokens) ==> r.headers[k] == api.headers[k]
  {
    Post(api, InstancesPath + "/" + s.instanceId + "/data;any", None, TokenHeaders(s.tokens))
  }

  /** Step 3: post the edited row to the row's endpoint, named by the row string
      exactly as given, with the session's tokens and the `X-Log-Out` mode that
      closes the instance after the response. */
  function PostRow(api: Client, s: Session, row: string, payload: Json): (r: Request)
    ensures r.verb == "POST" && r.path == InstancesPath + "/" + s.instanceId + "/data/panes/table/" + row
    ensures r.body == Some(payload) && r.auth == api.auth
    ensures r.headers.Keys == api.headers.Keys + TokenHeaders(s.tokens).Keys + {AuthModeHeader}
    ensures SendsTokens(r, s.tokens)
    ensures AuthModeHeader in r.headers && r.headers[AuthModeHeader] == "X-Log-Out"
    ensures forall k :: k in api.headers && k !in TokenHeaders(s.tokens) && k != AuthModeHeader ==> r.headers[k] == api.headers[k]
  {
    var extra := TokenHeaders(s.tokens)[AuthModeHeader := "X-Log-Out"];
    Post(api, InstancesPath + "/" + s.instanceId + "/data/panes/table/" + row, Some(payload), extra)
  }

  /** `int(time)` for each of the hour values, in order. */
  function ParseHours(pieces: seq<string>): (hours: seq<int>)
    requires forall i :: 0 <= i < |pieces| ==> IsDigits(pieces[i])
    ensures |hours| == |pieces|
    ensures forall i :: 0 <= i < |pieces| ==> IsDigits(pieces[i]) && hours[i] == ParseNat(pieces[i])
  {
    if |pieces| == 0 then []
    else
      assert IsDigits(pieces[0]);
      [ParseNat(pieces[0])] + ParseHours(pieces[1..])
  }

  /** The hours argument splits into exactly five values. */
  predicate DayCountOk(args: Args)
  {
    |Split(args.timeperday, ',')| == DayCount
  }

  /** The command runs to its end without an uncaught exception: the transport
      answers each of the three possible calls, and every answer the command goes
      on to read holds what it reads (the instance id and tokens of the first
      response, the tokens and the addressed row of the second, and the summary
      fields of that row once the third is accepted), and the five hour values are
      digit strings short enough for `int()`. */
  predicate Completes(args: Args, script: seq<Answer>)
  {
    && |script| == 3
    && (DayCountOk(args) && Accepted(script[0]) ==> OpensInstance(script[0].value))
    && (DayCountOk(args) && Accepted(script[0]) && Accepted(script[1]) ==>
          && HasTokens(script[1].value)
          && HasRow(script[1].value.body, args.row)
          && (forall i :: 0 <= i < DayCount ==>
                IsDigits(Split(args.timeperday, ',')[i]) && |Split(args.timeperday, ',')[i]| <= IntMaxDigits))
    && (DayCountOk(args) && Accepted(script[0]) && Accepted(script[1]) && Accepted(script[2]) ==>
          HasSummary(FindRow(script[1].value.body, args.row)))
  }

  /** The row the command posts: the fetched row with its day fields set from the
      hours argument. */
  function EditedRow(args: Args, week: Response): Json
    requires HasRow(week.body, args.row)
    requires |Split(args.timeperday, ',')| == DayCount
    requires forall i :: 0 <= i < DayCount ==> IsDigits(Split(args.timeperday, ',')[i])
  {
    SetWeekdayHours(FindRow(week.body, args.row), ParseHours(Split(args.timeperday, ',')))
  }

  /** The session once the instance is open. */
  function Opened(script: seq<Answer>): Session
    requires |script| >= 1 && Accepted(script[0]) && OpensInstance(script[0].value)
  {
    Session(InstanceId(script[0].value), TokensOf(script[0].value))
  }

  /** `command_report` over a scripted transport. The hours argument is checked
      before anything is sent, and at most three requests go out. */
  function Report(args: Args, script: seq<Answer>): (run: Run)
    requires Completes(args, script)
    ensures !DayCountOk(args) <==> run.requests == []
    ensures !DayCountOk(args) <==> run.outcome == WrongDayCount
    ensures |run.requests| <= 3
  {
    var pieces := Split(args.timeperday, ',');
    if |pieces| != DayCount then Run([], WrongDayCount)
    else
      var api := NewMaconomyClient(args.username, args.password);
      var open := OpenInstance(api);
      if !Accepted(script[0]) then Run([open], Aborted)
      else
        var session := Opened(script);
        // the basic credential is dropped: the tokens authenticate from here on
        var api := api.(auth := None);
        var fetch := FetchWeek(api, session);
        if !Accepted(script[1]) then Run([open, fetch], Aborted)
        else
          var week := script[1].value;
          var payload := EditedRow(args, week);
          var post := PostRow(api, Advance(session, week), args.row, payload);
          var outcome := (
            if !Accepted(script[2]) then Failed
            else
              SummarySurvivesEdit(FindRow(week.body, args.row), ParseHours(pieces));
              var data := Data(payload);
              Updated(data[EmployeeKey], data[PeriodKey], data[JobKey]));
          Run([open, fetch, post], outcome)
  }

  /** Once the hours are accepted, the first request issued is the open step,
      from the fresh client with the user's basic credential. */
  lemma ReportOpenStep(args: Args, script: seq<Answer>)
    requires Completes(args, script)
    requires DayCountOk(args)
    ensures |Report(args, script).requests| >= 1
    ensures Report(args, script).requests[0] == OpenInstance(NewMaconomyClient(args.username, args.password))
  {
  }

  /** Once the instance is opened, the second request is the fetch step, from the
      client with its credential cleared, for the instance and with the tokens of
      the first response. */
  lemma ReportFetchStep(args: Args, script: seq<Answer>)
    requires Completes(args, script)
    requires DayCountOk(args) && Accepted(script[0])
    ensures |Report(args, script).requests| >= 2
    ensures Report(args, script).requests[1] == FetchWeek(NewMaconomyClient(args.username, args.password).(auth := None), Opened(script))
  {
  }

  /** Once the week is fetched, the third request is the post step, from the
      client with its credential cleared, for the same instance and with the
      tokens of the second response, carrying the edited row. */
  lemma ReportPostStep(args: Args, script: seq<Answer>)
    requires Completes(args, script)
    requires DayCountOk(args) && Accepted(script[0]) && Accepted(script[1])
    ensures |Report(args, script).requests| == 3
    ensures Report(args, script).requests[2] ==
      PostRow(NewMaconomyClient(args.username, args.password).(auth := None),
              Advance(Opened(script), script[1].value), args.row, EditedRow(args, script[1].value))
  {
  }

  /** Strict short-circuit: a request goes out only after an accepted answer to
      its predecessor, and the command stops at the first answer that is not
      accepted. */
  lemma ReportShortCircuits(args: Args, script: seq<Answer>)
    requires Completes(args, script)
    ensures |Report(args, script).requests| >= 2 ==> Accepted(script[0])
    ensures |Report(args, script).requests| == 3 ==> Accepted(script[1])
    ensures 0 < |Report(args, script).requests| < 3 ==> !Accepted(script[|Report(args, script).requests| - 1])
  {
  }

  /** The command aborts when opening or fetching is not accepted, fails when
      the row post is not accepted, and reports the update otherwise. */
  lemma ReportOutcome(args: Args, script: seq<Answer>)
    requires Completes(args, script)
    ensures Report(args, script).outcome == Aborted <==> 0 < |Report(args, script).requests| < 3
    ensures Report(args, script).outcome == Failed <==>
      |Report(args, script).requests| == 3 && !Accepted(script[2])
    ensures Report(args, script).outcome.Updated? <==>
      |Report(args, script).requests| == 3 && Accepted(script[2])
  {
  }

  /** None of the per-step headers of the report flow names a base header. */
  lemma StepHeadersAreNotBaseHeaders()
    ensures AuthModeHeader !in BaseHeaders
    ensures forall t: Tokens, k :: k in TokenHeaders(t) ==> k !in BaseHeaders
  {
    assert BaseHeaders.Keys == {"X-Forwarded-Proto", "Maconomy-Forwarded-Base-Path", "Accept", "Content-type", "Accept-Language"};
    forall t: Tokens
      ensures TokenHeaders(t).Keys == {"Authorization", ConcurrencyHeader, RequestIdHeader}
    {
    }
  }

  /** Each of the three steps, issued from a client that sends the base headers,
      sends every base header unchanged. */
  lemma OpenKeepsBaseHeaders(api: Client)
    requires api.headers == BaseHeaders
    ensures KeepsBaseHeaders(OpenInstance(api))
  {
    StepHeadersAreNotBaseHeaders();
  }

  lemma FetchKeepsBaseHeaders(api: Client, s: Session)
    requires api.headers == BaseHeaders
    ensures KeepsBaseHeaders(FetchWeek(api, s))
  {
    StepHeadersAreNotBaseHeaders();
  }

  lemma PostKeepsBaseHeaders(api: Client, s: Session, row: string, payload: Json)
    requires api.headers == BaseHeaders
    ensures KeepsBaseHeaders(PostRow(api, s, row, payload))
  {
    StepHeadersAreNotBaseHeaders();
  }

  /** Every request is sent with the base headers intact. */
  lemma ReportKeepsBaseHeaders(args: Args, script: seq<Answer>)
    requires Completes(args, script)
    ensures forall i :: 0 <= i < |Report(args, script).requests| ==> KeepsBaseHeaders(Report(args, script).requests[i])
  {
    var run := Report(args, script);
    ReportShortCircuits(args, script);
    var n := |Report(args, script).requests|;
    if n >= 1 { ReportOpenStep(args, script); }
    if n >= 2 { ReportFetchStep(args, script); }
    if n == 3 { ReportPostStep(args, script); }
    var api := NewMaconomyClient(args.username, args.password);
    if n >= 1 {
      OpenKeepsBaseHeaders(api);
      assert KeepsBaseHeaders(run.requests[0]);
    }
    if n >= 2 {
      FetchKeepsBaseHeaders(api.(auth := None), Opened(script));
      assert KeepsBaseHeaders(run.requests[1]);
    }
    if n == 3 {
      PostKeepsBaseHeaders(api.(auth := None), Advance(Opened(script), script[1].value), args.row, EditedRow(args, script[1].value));
      assert KeepsBaseHeaders(run.requests[2]);
    }
    forall i | 0 <= i < n
      ensures KeepsBaseHeaders(run.requests[i])
    {
      assert i == 0 || i == 1 || i == 2;
    }
  }

  /** Every request is a POST, and only the first one carries the basic
      credential: it is cleared once the instance is open. */
  lemma ReportClearsCredential(args: Args, script: seq<Answer>)
    requires Completes(args, script)
    ensures var run := Report(args, script);
      |run.requests| >= 1 ==>
        run.requests[0].verb == "POST" && run.requests[0].auth == Some(Credential(args.username, args.password))
    ensures var run := Report(args, script);
      |run.requests| >= 2 ==> run.requests[1].verb == "POST" && run.requests[1].auth == None
    ensures var run := Report(args, script);
      |run.requests| == 3 ==> run.requests[2].verb == "POST" && run.requests[2].auth == None
  {
    ReportShortCircuits(args, script);
    var n := |Report(args, script).requests|;
    if n >= 1 { ReportOpenStep(args, script); }
    if n >= 2 { ReportFetchStep(args, script); }
    if n == 3 { ReportPostStep(args, script); }
  }

  /** The first request opens the instance: the base headers plus the
      authentication mode `X-Reconnect`, and an empty object as body. */
  lemma ReportFirstRequest(args: Args, script: seq<Answer>)
    requires Completes(args, script)
    requires DayCountOk(args)
    ensures |Report(args, script).requests| >= 1
    ensures Report(args, script).requests[0].path == InstancesPath
    ensures Report(args, script).requests[0].body == Some(JObj(map[]))
    ensures Report(args, script).requests[0].headers == BaseHeaders[AuthModeHeader := "X-Reconnect"]
  {
    ReportOpenStep(args, script);
    var r := OpenInstance(NewMaconomyClient(args.username, args.password));
    assert Report(args, script).requests[0] == r;
    assert r.headers == BaseHeaders[AuthModeHeader := "X-Reconnect"];
  }

  /** Every request after the first carries the three tokens of the response
      immediately before it: the second those of the first response, the third
      those of the second response. */
  lemma ReportChainsTokens(args: Args, script: seq<Answer>)
    requires Completes(args, script)
    ensures |Report(args, script).requests| >= 2 ==>
      HasTokens(script[0].value) && SendsTokens(Report(args, script).requests[1], TokensOf(script[0].value))
    ensures |Report(args, script).requests| == 3 ==>
      HasTokens(script[1].value) && SendsTokens(Report(args, script).requests[2], TokensOf(script[1].value))
  {
    ReportShortCircuits(args, script);
    var n := |Report(args, script).requests|;
    if n >= 2 { ReportFetchStep(args, script); }
    if n == 3 { ReportPostStep(args, script); }
  }

  /** The second request fetches the week of the instance named by the first
      response, without a body and without an authentication mode of its own. */
  lemma ReportFetchesCreatedInstance(args: Args, script: seq<Answer>)
    requires Completes(args, script)
    requires DayCountOk(args) && Accepted(script[0])
    ensures OpensInstance(script[0].value) && |Report(args, script).requests| >= 2
    ensures Report(args, script).requests[1].path == InstancesPath + "/" + InstanceId(script[0].value) + "/data;any"
    ensures Report(args, script).requests[1].body == None
    ensures AuthModeHeader !in Report(args, script).requests[1].headers
  {
    ReportFetchStep(args, script);
    StepHeadersAreNotBaseHeaders();
  }

  /** The third request posts the fetched row, edited in its day fields only, to
      the row's endpoint of the same instance and logs the instance out. */
  lemma ReportPostsEditedRow(args: Args, script: seq<Answer>)
    requires Completes(args, script)
    requires DayCountOk(args) && Accepted(script[0]) && Accepted(script[1])
    ensures OpensInstance(script[0].value) && HasRow(script[1].value.body, args.row)
    ensures |Report(args, script).requests| == 3
    ensures Report(args, script).requests[2].path ==
      InstancesPath + "/" + InstanceId(script[0].value) + "/data/panes/table/" + args.row
    ensures Report(args, script).requests[2].headers[AuthModeHeader] == "X-Log-Out"
    ensures Report(args, script).requests[2].body == Some(EditedRow(args, script[1].value))
  {
    ReportPostStep(args, script);
  }

  /** The confirmation names the fetched row's own employee, period and job. */
  lemma ReportSummaryIsFetchedRows(args: Args, script: seq<Answer>)
    requires Completes(args, script)
    requires DayCountOk(args) && Accepted(script[0]) && Accepted(script[1]) && Accepted(script[2])
    ensures HasSummary(FindRow(script[1].value.body, args.row))
    ensures Report(args, script).outcome.Updated?
    ensures Report(args, script).outcome.employee == Data(FindRow(script[1].value.body, args.row))[EmployeeKey]
    ensures Report(args, script).outcome.period == Data(FindRow(script[1].value.body, args.row))[PeriodKey]
    ensures Report(args, script).outcome.job == Data(FindRow(script[1].value.body, args.row))[JobKey]
  {
    ReportOutcome(args, script);
  }

  /** The row is addressed twice: the table entry by `int(row)`, the endpoint by
      the row string as typed. Two spellings of the same number (`2`, `02`) post
      the same edited row, each to the endpoint named by its own spelling. */
  lemma ReportRowSpelling(args: Args, script: seq<Answer>, spelling: string)
    requires Completes(args, script)
    requires DayCountOk(args) && Accepted(script[0]) && Accepted(script[1])
    requires IsDigits(spelling) && |spelling| <= IntMaxDigits && ParseNat(spelling) == ParseNat(args.row)
    ensures Completes(args.(row := spelling), script)
    ensures |Report(args.(row := spelling), script).requests| == 3
    ensures Report(args.(row := spelling), script).requests[2].body == Report(args, script).requests[2].body
    ensures Report(args.(row := spelling), script).requests[2].path ==
      InstancesPath + "/" + InstanceId(script[0].value) + "/data/panes/table/" + spelling
  {
    var other := args.(row := spelling);
    ReportPostsEditedRow(args, script);
    assert FindRow(script[1].value.body, spelling) == FindRow(script[1].value.body, args.row);
    assert Completes(other, script);
    ReportPostsEditedRow(other, script);
  }

}

=== FILE: scenarios.dfy ===
/** Concrete runs of the report command over scripted transports. */
module Scenarios {
  import opened Wrappers
  import opened Json
  import opened Text
  import opened ApiClient
  import opened Timesheet
  import opened CommandReport

  /** The five weekday fields are spelled `numberday1` to `numberday5`. */
  lemma DayKeysSpelled()
    ensures DayKey(0) == "numberday1" && DayKey(1) == "numberday2" && DayKey(2) == "numberday3"
    ensures DayKey(3) == "numberday4" && DayKey(4) == "numberday5"
  {
  }

  /** A hours argument with three values splits into three pieces. */
  lemma SplitThree()
    ensures |Split("8,8,8", ',')| == 3
  {
    assert Count("8,8,8", ',') == 2 by {
      assert "8,8,8"[1..] == ",8,8";
      assert ",8,8"[1..] == "8,8";
      assert "8,8"[1..] == ",8";
      assert ",8"[1..] == "8";
      assert "8"[1..] == "";
    }
  }

  /** `"8,8,8,4,8".split(',')`. */
  lemma SplitFive()
    ensures Split("8,8,8,4,8", ',') == ["8", "8", "8", "4", "8"]
  {
    var pieces := ["8", "8", "8", "4", "8"];
    assert Join(pieces[4..], ',') == "8";
    assert Join(pieces[3..], ',') == "4,8";
    assert Join(pieces[2..], ',') == "8,4,8";
    assert Join(pieces[1..], ',') == "8,8,4,8";
    assert Join(pieces, ',') == "8,8,8,4,8";
    SplitJoin(pieces, ',');
  }

  /** Three values for the week: the command ends before anything is sent,
      whatever the transport would have answered. */
  lemma ThreeValuesRejectedBeforeSending(username: string, password: string, row: string, script: seq<Answer>)
    requires |script| == 3
    ensures Completes(Args(username, password, row, "8,8,8"), script)
    ensures Report(Args(username, password, row, "8,8,8"), script) == Run([], WrongDayCount)
  {
    SplitThree();
  }

  /** The first response, naming instance `id` and carrying tokens `t`. */
  function Created(id: string, t: Tokens): Answer
  {
    Some(Response(200, ResponseTokenHeaders(t), JObj(map["meta" := JObj(map["containerInstanceId" := JStr(id)])])))
  }

  /** Response headers carrying tokens `t`. */
  function ResponseTokenHeaders(t: Tokens): Headers
  {
    map[ReconnectHeader := t.reconnect, ConcurrencyHeader := t.concurrency, RequestIdHeader := t.requestId]
  }

  /** A table row whose weekday fields are all zero. */
  function ZeroRow(): Json
  {
    JObj(map[
      "data" := JObj(map[
        "numberday1" := JNum(0), "numberday2" := JNum(0), "numberday3" := JNum(0),
        "numberday4" := JNum(0), "numberday5" := JNum(0),
        "employeenumber" := JStr("1001"), "periodstart" := JStr("2024-01-01"),
        "jobnumber" := JStr("J-7"), "description" := JStr("development")]),
      "meta" := JObj(map["rowNumber" := JNum(2)])])
  }

  /** The fields the confirmation message reads from a zero row. */
  lemma ZeroRowSummary()
    ensures HasSummary(ZeroRow())
    ensures Data(ZeroRow())[EmployeeKey] == JStr("1001")
    ensures Data(ZeroRow())[PeriodKey] == JStr("2024-01-01")
    ensures Data(ZeroRow())[JobKey] == JStr("J-7")
  {
  }

  /** A table row of another employee, numbered `n`. */
  function OtherRow(n: int): Json
  {
    JObj(map[
      "data" := JObj(map["employeenumber" := JStr("1002")]),
      "meta" := JObj(map["rowNumber" := JNum(n)])])
  }

  /** The second response: a week of two other rows and a zero row at index 2,
      carrying tokens `t`. */
  function Week(t: Tokens): Answer
  {
    Some(Response(200, ResponseTokenHeaders(t),
      JObj(map["panes" := JObj(map["table" := JObj(map["records" := JArr([OtherRow(0), OtherRow(1), ZeroRow()])])])])))
  }

  /** All three steps answered with 200; the two token-carrying responses hand
      out different reconnect tokens. */
  function AllAccepted(): seq<Answer>
  {
    [Created("abc", Tokens("r1", "c1", "q1")), Week(Tokens("r2", "c2", "q2")), Some(Response(200, map[], JObj(map[])))]
  }

  /** Writing `8,8,8,4,8` into a zero row. */
  lemma ZeroRowEdited()
    ensures var edited := SetWeekdayHours(ZeroRow(), [8, 8, 8, 4, 8]);
      && IsEditable(edited)
      && Data(edited)["numberday1"] == JNum(8)
      && Data(edited)["numberday2"] == JNum(8)
      && Data(edited)["numberday3"] == JNum(8)
      && Data(edited)["numberday4"] == JNum(4)
      && Data(edited)["numberday5"] == JNum(8)
      && Data(edited)["description"] == JStr("development")
      && edited.fields["meta"] == JObj(map["rowNumber" := JNum(2)])
  {
    var hours := [8, 8, 8, 4, 8];
    var edited := SetWeekdayHours(ZeroRow(), hours);
    DayKeysSpelled();
    assert Data(edited)[DayKey(3)] == JNum(hours[3]);
    assert "description" !in DayKeys(0, |hours|) by {
      forall i | 0 <= i < |hours|
        ensures DayKey(i) != "description"
      {
        assert DayKey(i)[0] == 'n';
      }
    }
  }

  /** The first response names the instance and carries its tokens. */
  lemma CreatedOpens(id: string, t: Tokens)
    ensures OpensInstance(Created(id, t).value)
    ensures InstanceId(Created(id, t).value) == id && TokensOf(Created(id, t).value) == t
  {
    var body := Created(id, t).value.body;
    assert InstanceIdPath[1..] == ["containerInstanceId"];
    assert HasPath(body.fields["meta"], ["containerInstanceId"]);
  }

  /** The second response holds row 2, the zero row and no other, and carries
      its tokens. */
  lemma WeekHasRowTwo(t: Tokens)
    ensures HasTokens(Week(t).value) && TokensOf(Week(t).value) == t
    ensures HasRow(Week(t).value.body, "2")
    ensures ZeroRow() != OtherRow(0) && ZeroRow() != OtherRow(1)
    ensures FindRow(Week(t).value.body, "2") == ZeroRow()
  {
    var body := Week(t).value.body;
    var panes := body.fields["panes"];
    var table := panes.fields["table"];
    assert RecordsPath[1..] == ["table", "records"];
    assert RecordsPath[1..][1..] == ["records"];
    assert HasPath(table, ["records"]) && At(table, ["records"]) == JArr([OtherRow(0), OtherRow(1), ZeroRow()]);
    assert HasPath(panes, ["table", "records"]) && At(panes, ["table", "records"]) == At(table, ["records"]);
    assert HasPath(body, RecordsPath) && At(body, RecordsPath) == At(panes, ["table", "records"]);
    assert ParseNat("2") == 2;
    RowsDiffer();
  }

  /** The zero row differs from the other rows of the week: its number is 2. */
  lemma RowsDiffer()
    ensures ZeroRow() != OtherRow(0) && ZeroRow() != OtherRow(1)
  {
    assert ZeroRow().fields["meta"].fields["rowNumber"] == JNum(2);
    assert OtherRow(0).fields["meta"].fields["rowNumber"] == JNum(0);
    assert OtherRow(1).fields["meta"].fields["rowNumber"] == JNum(1);
  }

  /** `int()` of the pieces of `8,8,8,4,8`. */
  lemma FiveHours()
    ensures forall i :: 0 <= i < 5 ==> IsDigits(["8", "8", "8", "4", "8"][i])
    ensures ParseHours(["8", "8", "8", "4", "8"]) == [8, 8, 8, 4, 8]
  {
    assert IsDigits("8") && IsDigits("4");
    assert ParseNat("8") == 8 && ParseNat("4") == 4;
    var hours := ParseHours(["8", "8", "8", "4", "8"]);
    assert hours[0] == 8 && hours[1] == 8 && hours[2] == 8 && hours[3] == 4 && hours[4] == 8;
  }

  /** The hours `8,8,8,4,8` are five digit strings worth 8, 8, 8, 4 and 8. */
  lemma FiveValuesParsed(args: Args)
    requires args.timeperday == "8,8,8,4,8"
    ensures DayCountOk(args)
    ensures forall i :: 0 <= i < DayCount ==>
      IsDigits(Split(args.timeperday, ',')[i]) && |Split(args.timeperday, ',')[i]| <= IntMaxDigits
    ensures ParseHours(Split(args.timeperday, ',')) == [8, 8, 8, 4, 8]
  {
    SplitFive();
    FiveHours();
  }

  /** The all-accepted script lets the command run to its end for row 2 and the
      hours `8,8,8,4,8`. */
  lemma AllAcceptedCompletes(args: Args)
    requires args.row == "2" && args.timeperday == "8,8,8,4,8"
    ensures Completes(args, AllAccepted())
    ensures DayCountOk(args)
    ensures InstanceId(AllAccepted()[0].value) == "abc"
    ensures TokensOf(AllAccepted()[1].value) == Tokens("r2", "c2", "q2")
    ensures FindRow(AllAccepted()[1].value.body, "2") == ZeroRow()
    ensures EditedRow(args, AllAccepted()[1].value) == SetWeekdayHours(ZeroRow(), [8, 8, 8, 4, 8])
  {
    CreatedOpens("abc", Tokens("r1", "c1", "q1"));
    WeekHasRowTwo(Tokens("r2", "c2", "q2"));
    FiveValuesParsed(args);
    assert HasSummary(ZeroRow());
  }

  /** Reporting `8,8,8,4,8` for row 2 of a week whose rows differ: all three requests
      go out, and the row is posted back with exactly its day fields changed,
      under the tokens of the fetch response (its reconnect token `r2`, not the
      `r1` of the first response). */
  lemma ReportFiveValuesForRowTwo(args: Args, script: seq<Answer>)
    requires args.row == "2" && args.timeperday == "8,8,8,4,8"
    requires script == AllAccepted()
    ensures Completes(args, script)
    ensures var run := Report(args, script);
      && |run.requests| == 3
      && run.requests[2].headers["Authorization"] == "X-Reconnect r2"
      && run.requests[2].headers["Maconomy-Concurrency-Control"] == "c2"
      && run.requests[2].headers["Maconomy-RequestId"] == "q2"
      && run.requests[2].body == Some(SetWeekdayHours(ZeroRow(), [8, 8, 8, 4, 8]))
  {
    assert "X-Reconnect " + "r2" == "X-Reconnect r2";
    PostCarriesFetchTokens(args, script);
    PostCarriesEditedRowTwo(args, script);
  }

  /** In that run the post carries the tokens of the fetch response. */
  lemma PostCarriesFetchTokens(args: Args, script: seq<Answer>)
    requires args.row == "2" && args.timeperday == "8,8,8,4,8"
    requires script == AllAccepted()
    ensures Completes(args, script)
    ensures |Report(args, script).requests| == 3
    ensures SendsTokens(Report(args, script).requests[2], Tokens("r2", "c2", "q2"))
  {
    AllAcceptedCompletes(args);
    ReportPostStep(args, script);
    ReportChainsTokens(args, script);
  }

  /** In that run the post carries the zero row with the hours written in. */
  lemma PostCarriesEditedRowTwo(args: Args, script: seq<Answer>)
    requires args.row == "2" && args.timeperday == "8,8,8,4,8"
    requires script == AllAccepted()
    ensures Completes(args, script)
    ensures |Report(args, script).requests| == 3
    ensures Report(args, script).requests[2].body == Some(SetWeekdayHours(ZeroRow(), [8, 8, 8, 4, 8]))
  {
    AllAcceptedCompletes(args);
    ReportPostsEditedRow(args, script);
  }

  /** The same run ends with a confirmation naming the row's employee, period
      and job. */
  lemma ReportFiveValuesConfirms(args: Args, script: seq<Answer>)
    requires args.row == "2" && args.timeperday == "8,8,8,4,8"
    requires script == AllAccepted()
    ensures Completes(args, script)
    ensures Report(args, script).outcome == Updated(JStr("1001"), JStr("2024-01-01"), JStr("J-7"))
  {
    AllAcceptedCompletes(args);
    assert Report(args, script).outcome.Updated?;
    ReportSummaryIsFetchedRows(args, script);
    ZeroRowSummary();
  }

}

=== FILE: text.dfy ===
/** The string handling the report command relies on: Python's `str.split` with an
    explicit one-character separator, `int()` applied to a string of decimal digits,
    and the decimal formatting of a natural number in an f-string. */
module Text {

  /** Number of occurrences of `c` in `s`. */
  function Count(s: string, c: char): nat
  {
    if |s| == 0 then 0 else (if s[0] == c then 1 else 0) + Count(s[1..], c)
  }

  /** `sep.join(pieces)`: the pieces with one separator between neighbours. */
  function Join(pieces: seq<string>, sep: char): string
    requires |pieces| >= 1
  {
    if |pieces| == 1 then pieces[0] else pieces[0] + [sep] + Join(pieces[1..], sep)
  }

  /** `s.split(sep)`: the maximal separator-free pieces of `s`, in order. An empty
      string splits into one empty piece, and every separator starts a new piece. */
  function Split(s: string, sep: char): (pieces: seq<string>)
    ensures |pieces| == Count(s, sep) + 1
    ensures forall i :: 0 <= i < |pieces| ==> sep !in pieces[i]
    decreases |s|
  {
    if |s| == 0 then [""]
    else
      var rest := Split(s[1..], sep);
      if s[0] == sep then [""] + rest
      else [[s[0]] + rest[0]] + rest[1..]
  }

  /** Joining the pieces with the separator gives back the split string: no
      character is lost or added. */
  lemma {:induction false} SplitThenJoin(s: string, sep: char)
    ensures Join(Split(s, sep), sep) == s
    decreases |s|
  {
    if |s| > 0 {
      var rest := Split(s[1..], sep);
      SplitThenJoin(s[1..], sep);
      if s[0] == sep {
        assert ([""] + rest)[1..] == rest;
      } else {
        var pieces := [[s[0]] + rest[0]] + rest[1..];
        assert pieces[1..] == rest[1..];
        assert |rest| > 1 ==> Join(rest, sep) == rest[0] + [sep] + Join(rest[1..], sep);
        assert [s[0]] + s[1..] == s;
      }
    }
  }

  /** Splitting a separator-free prefix followed by `t` glues the prefix to the
      first piece of `t` and leaves the other pieces alone. */
  lemma {:induction false} SplitPrefix(p: string, t: string, sep: char)
    requires sep !in p
    ensures Split(p + t, sep) == [p + Split(t, sep)[0]] + Split(t, sep)[1..]
    decreases |p|
  {
    if |p| == 0 {
      assert p + t == t;
      assert p + Split(t, sep)[0] == Split(t, sep)[0];
      assert Split(t, sep) == [Split(t, sep)[0]] + Split(t, sep)[1..];
    } else {
      SplitPrefix(p[1..], t, sep);
      assert (p + t)[1..] == p[1..] + t;
      assert [p[0]] + (p[1..] + Split(t, sep)[0]) == p + Split(t, sep)[0];
    }
  }

  /** The other round trip: joining separator-free pieces and splitting the result
      gives the pieces back, so `Split` recovers exactly what was written between
      the separators. */
  lemma {:induction false} SplitJoin(pieces: seq<string>, sep: char)
    requires |pieces| >= 1
    requires forall i :: 0 <= i < |pieces| ==> sep !in pieces[i]
    ensures Split(Join(pieces, sep), sep) == pieces
    decreases |pieces|
  {
    if |pieces| == 1 {
      SplitPrefix(pieces[0], "", sep);
      assert pieces[0] + "" == pieces[0];
    } else {
      var tail := Join(pieces[1..], sep);
      SplitJoin(pieces[1..], sep);
      SplitPrefix(pieces[0], [sep] + tail, sep);
      assert ([sep] + tail)[1..] == tail;
      assert Split([sep] + tail, sep) == [""] + Split(tail, sep);
      assert pieces[0] + "" == pieces[0];
      assert pieces[0] + [sep] + tail == pieces[0] + ([sep] + tail);
      assert pieces == [pieces[0]] + pieces[1..];
    }
  }

  predicate IsDigit(c: char)
  {
    '0' <= c <= '9'
  }

  /** A non-empty string of decimal digits: the strings `int()` is applied to here. */
  predicate IsDigits(s: string)
  {
    |s| > 0 && forall i :: 0 <= i < |s| ==> IsDigit(s[i])
  }

  function DigitValue(c: char): nat
    requires IsDigit(c)
  {
    (c as int) - ('0' as int)
  }

  function DigitChar(d: nat): (c: char)
    requires d < 10
    ensures IsDigit(c) && DigitValue(c) == d
  {
    (('0' as int) + d) as char
  }

  /** The most digits `int()` converts from a decimal string: from CPython 3.11
      on, a longer string raises `ValueError`. */
  const IntMaxDigits := 4300

  /** `int(s)` for a string of decimal digits (leading zeros allowed). */
  function ParseNat(s: string): nat
    requires IsDigits(s)
    decreases |s|
  {
    if |s| == 1 then DigitValue(s[0])
    else
      assert IsDigits(s[..|s| - 1]);
      10 * ParseNat(s[..|s| - 1]) + DigitValue(s[|s| - 1])
  }

  /** `f"{n}"` for a natural number: its shortest decimal spelling, which `int()`
      reads back as `n`. */
  function Decimal(n: nat): (s: string)
    ensures IsDigits(s)
    ensures ParseNat(s) == n
    ensures n < 10 <==> |s| == 1
    ensures n > 0 ==> s[0] != '0'
  {
    if n < 10 then [DigitChar(n)]
    else
      var s := Decimal(n / 10) + [DigitChar(n % 10)];
      assert s[..|s| - 1] == Decimal(n / 10);
      assert s[0] == Decimal(n / 10)[0];
      s
  }

  /** Distinct numbers have distinct decimal spellings. */
  lemma DecimalInjective(m: nat, n: nat)
    ensures Decimal(m) == Decimal(n) ==> m == n
  {
  }

}

=== FILE: timesheet.dfy ===
/** Record projection for the report command: locating a row of the week's table
    pane in the fetch response, writing the five weekday hour fields of that row,
    and reading the fields named in the confirmation message. */
module Timesheet {
  import opened Json
  import opened Text

  /** Key path of the table rows in the body of the "fetch week" response. */
  const RecordsPath: seq<string> := ["panes", "table", "records"]

  /** The fields of a row that the confirmation message reads. */
  const EmployeeKey := "employeenumber"
  const PeriodKey := "periodstart"
  const JobKey := "jobnumber"

  /** The key of the `i`-th (zero-based) weekday hour field: `f"numberday{i+1}"`. */
  function DayKey(i: nat): (k: string)
    ensures |k| > 9 && k[..9] == "numberday"
    ensures IsDigits(k[9..]) && k[9] != '0' && ParseNat(k[9..]) == i + 1
  {
    "numberday" + Decimal(i + 1)
  }

  /** Different weekdays are written to different fields. */
  lemma DayKeyInjective(i: nat, j: nat)
    ensures DayKey(i) == DayKey(j) ==> i == j
  {
    if DayKey(i) == DayKey(j) {
      assert Decimal(i + 1) == DayKey(i)[9..];
      assert Decimal(j + 1) == DayKey(j)[9..];
      DecimalInjective(i + 1, j + 1);
    }
  }

  /** The day fields with zero-based index in `[from, to)`. */
  function DayKeys(from: nat, to: nat): set<string>
  {
    set i | from <= i < to :: DayKey(i)
  }

  /** None of the confirmation-message fields is a day field. */
  lemma SummaryKeysAreNotDayKeys(i: nat)
    ensures DayKey(i) != EmployeeKey && DayKey(i) != PeriodKey && DayKey(i) != JobKey
  {
    assert DayKey(i)[0] == 'n';
  }

  /** A row that can be edited: an object whose `data` entry is an object. */
  predicate IsEditable(record: Json)
  {
    record.JObj? && "data" in record.fields && record.fields["data"].JObj?
  }

  /** The `data` dictionary of an editable row. */
  function Data(record: Json): map<string, Json>
    requires IsEditable(record)
  {
    record.fields["data"].fields
  }

  /** `json["panes"]["table"]["records"][int(row)]` succeeds and yields an editable
      row. A row string of at most `IntMaxDigits` digits only is required: `int()`
      accepts more spellings and rejects longer ones, and a negative index would
      select from the end of the table. */
  predicate HasRow(body: Json, row: string)
  {
    && HasPath(body, RecordsPath)
    && At(body, RecordsPath).JArr?
    && IsDigits(row) && |row| <= IntMaxDigits
    && ParseNat(row) < |At(body, RecordsPath).items|
    && IsEditable(At(body, RecordsPath).items[ParseNat(row)])
  }

  /** Row `int(row)` of the table pane. */
  function FindRow(body: Json, row: string): (record: Json)
    requires HasRow(body, row)
    ensures IsEditable(record)
    ensures record in At(body, RecordsPath).items
  {
    At(body, RecordsPath).items[ParseNat(row)]
  }

  /** Row `i` of the table, addressed by the decimal spelling of `i` (short
      enough for `int()`), is the table's `i`-th record. */
  lemma FindRowAtIndex(body: Json, i: nat)
    requires HasPath(body, RecordsPath) && At(body, RecordsPath).JArr?
    requires i < |At(body, RecordsPath).items| && IsEditable(At(body, RecordsPath).items[i])
    requires |Decimal(i)| <= IntMaxDigits
    ensures HasRow(body, Decimal(i))
    ensures FindRow(body, Decimal(i)) == At(body, RecordsPath).items[i]
  {
  }

  /** `for i, time in enumerate(hours): data[f"numberday{i+1}"] = time`, from the
      `from`-th entry on: each such day field holds its entry afterwards, and
      every other key keeps its value. */
  function WriteDays(data: map<string, Json>, hours: seq<int>, from: nat): (out: map<string, Json>)
    requires from <= |hours|
    ensures out.Keys == data.Keys + DayKeys(from, |hours|)
    ensures forall i :: from <= i < |hours| ==> out[DayKey(i)] == JNum(hours[i])
    ensures forall k :: k in data && k !in DayKeys(from, |hours|) ==> out[k] == data[k]
    decreases |hours| - from
  {
    if from == |hours| then data
    else
      var out := WriteDays(data[DayKey(from) := JNum(hours[from])], hours, from + 1);
      assert DayKeys(from, |hours|) == {DayKey(from)} + DayKeys(from + 1, |hours|);
      assert DayKey(from) !in DayKeys(from + 1, |hours|) by {
        forall i | from + 1 <= i < |hours|
          ensures DayKey(i) != DayKey(from)
        {
          DayKeyInjective(i, from);
        }
      }
      out
  }

  /** The row as posted back: `data.numberday{i+1}` holds the `i`-th hour value for
      every `i`, every other `data` entry and every other field of the row is
      passed through unchanged, and no key is dropped. */
  function SetWeekdayHours(record: Json, hours: seq<int>): (edited: Json)
    requires IsEditable(record)
    ensures IsEditable(edited)
    ensures edited.fields.Keys == record.fields.Keys
    ensures forall k :: k in record.fields && k != "data" ==> edited.fields[k] == record.fields[k]
    ensures Data(edited).Keys == Data(record).Keys + DayKeys(0, |hours|)
    ensures forall i :: 0 <= i < |hours| ==> Data(edited)[DayKey(i)] == JNum(hours[i])
    ensures forall k :: k in Data(record) && k !in DayKeys(0, |hours|) ==> Data(edited)[k] == Data(record)[k]
  {
    record.(fields := record.fields["data" := JObj(WriteDays(Data(record), hours, 0))])
  }

  /** The confirmation message reads these three `data` entries. */
  predicate HasSummary(record: Json)
  {
    IsEditable(record) && EmployeeKey in Data(record) && PeriodKey in Data(record) && JobKey in Data(record)
  }

  /** Editing the day fields keeps every field the confirmation message reads:
      the summary of the posted row is the summary of the fetched row. */
  lemma SummarySurvivesEdit(record: Json, hours: seq<int>)
    requires HasSummary(record)
    ensures HasSummary(SetWeekdayHours(record, hours))
    ensures Data(SetWeekdayHours(record, hours))[EmployeeKey] == Data(record)[EmployeeKey]
    ensures Data(SetWeekdayHours(record, hours))[PeriodKey] == Data(record)[PeriodKey]
    ensures Data(SetWeekdayHours(record, hours))[JobKey] == Data(record)[JobKey]
  {
    forall i | 0 <= i < |hours|
      ensures DayKey(i) != EmployeeKey && DayKey(i) != PeriodKey && DayKey(i) != JobKey
    {
      SummaryKeysAreNotDayKeys(i);
    }
  }

}

=== FILE: wrappers.dfy ===
/** The optional-value wrapper used for values Python represents with `None`. */
module Wrappers {

  datatype Option<+T> = None | Some(value: T)

}
